=== FILE: README.md ===
# Watch-page widget logic, modelled in Dafny

This project models the view logic of a video watch page clone: the comment
list with likes and replies, the comment composer, the action bar with its
report dialog, the channel subscribe widget, the expandable description with
its hashtag row, and the share dialog's embed snippet. Every component's
state is an immutable datatype and every handler a pure transition function.
Rendering, styling, timers and browser APIs are outside the model.

Modules, one per component file:

- `Optional`, `JsText` (`jstext.dfy`): an option type and the JavaScript
  string operations the handlers use. These are `trim` with the ECMAScript
  whitespace set, the `\w` character class, and `length` in UTF-16 code units.
- `Comments` (`comments.dfy`): the comment list and its four operations (like,
  new comment, reply, visible slice). It also covers one comment row's reply
  input and its replies toggle.
- `Composer` (`composer.dfy`): the new-comment form, with its blank-text guard
  and its pending phase.
- `Report` (`report.dfy`): the three-step report dialog.
- `VideoActions` (`actions.dfy`): like/dislike, save, clip, and the report
  dialog's visibility.
- `Channel` (`channel.dfy`): subscribe button, notification dropdown and bell.
- `Description` (`description.dfy`): expand/collapse and hashtag extraction.
- `Share` (`share.dfy`): tabs, start time, copy buttons and the embed snippet.

Fresh identifiers come from the clock in the component. Here they are
parameters: `freshId` for a new comment, and `stamp` for the clock reading
inside a reply id. Freshness appears only as a precondition of the lemmas
about unique identifiers. A button that is not rendered in the current state,
or is disabled, is modelled as an event with no effect.

Two behaviours of the code are worth stating explicitly:

- Clicking the main channel button while subscribed unsubscribes and closes
  the dropdown, keeping the chosen level
  (src/app/components/ChannelInfo.tsx:31-35, `Channel.ClickSubscribe`).
- Done, Cancel and Close in the report dialog only call `onClose`
  (src/app/components/ReportModal.tsx:84-86, 146-148, 214-216, 246-248). The
  dialog's state hooks run before its `if (!isOpen) return null`
  (src/app/components/ReportModal.tsx:13-17), and the dialog stays mounted
  under the action bar (src/app/components/VideoActions.tsx:175-179). So
  reopening it after Done shows the confirmation step again, with the same
  selection and details (`VideoActions.DoneThenReopenResumes`).

## Model

| member | source | states |
|---|---|---|
| JsText.TrimStart | src/app/components/AddComment.tsx:16 | `trim` removes exactly the leading whitespace: the result is a suffix that does not start with a space |
| JsText.TrimEnd | src/app/components/AddComment.tsx:16 | `trim` removes exactly the trailing whitespace: the result is a prefix that does not end with a space |
| JsText.BlankIffAllSpace | src/app/components/AddComment.tsx:16 | the guard `!text.trim()` holds exactly when every character is whitespace |
| JsText.Utf16Length | src/app/components/ReportModal.tsx:191 | the counter's `length` is exactly the number of code units of the UTF-16 encoding (one per BMP code point, a surrogate pair otherwise); hence between the number of code points and twice that, and equal to it for BMP-only text |
| Comments.ToggleLike | src/app/components/CommentsPreview.tsx:37-45 | length is kept; `isLiked` flips exactly on top-level comments with the id; every other field of every comment, `likes` included, is unchanged |
| Comments.ToggleLikeTwice | src/app/components/CommentsPreview.tsx:40-41 | liking twice with the same id restores the list exactly |
| Comments.ToggleLikeUnknownId | src/app/components/CommentsPreview.tsx:38-44 | an id that is not a top-level id, such as a reply's, leaves the list unchanged |
| Comments.AddComment | src/app/components/CommentsPreview.tsx:47-61 | the result is the new comment followed by the old list; the new comment has author "You" with the fixed avatar, likes "0", timestamp "Just now", is not liked and has an empty reply list |
| Comments.AddCommentKeepsIdsUnique | src/app/components/CommentsPreview.tsx:49 | a fresh id keeps all ids in the tree unique and adds exactly that id |
| Comments.AddReply | src/app/components/CommentsPreview.tsx:63-86 | length is kept; comments with another id are unchanged; a matching comment changes only its replies, which become the old replies (missing read as empty) plus the one new reply |
| Comments.AddReplyUnknownParent | src/app/components/CommentsPreview.tsx:77-85 | a parent id that matches no top-level comment leaves the list unchanged |
| Comments.AddReplyIds | src/app/components/CommentsPreview.tsx:65-85 | with exactly one matching top-level comment, the tree's ids gain exactly the reply id `parent-stamp` |
| Comments.AddReplyKeepsIdsUnique | src/app/components/CommentsPreview.tsx:63-86 | replying to an existing comment of a tree with unique ids adds exactly one comment and keeps ids unique, given a fresh reply id |
| Comments.Displayed | src/app/components/CommentsPreview.tsx:90 | the visible list is a prefix of the list, of length `|list|` when showing all and `min(3, |list|)` otherwise |
| Comments.ShowMoreCountsHidden | src/app/components/CommentsPreview.tsx:246-255 | "Show N more" appears exactly when some comments are hidden, and N is their number |
| Comments.SubmitReply | src/app/components/CommentsPreview.tsx:97-103 | a closed reply form or blank reply text changes nothing; otherwise the reply is added, and the text is cleared and the input closed |
| Comments.DisabledReplySubmitIsNoop | src/app/components/CommentsPreview.tsx:170 | whenever the reply submit button is disabled (blank text), submitting changes nothing |
| Comments.InitialRowPostsNothing | src/app/components/CommentsPreview.tsx:93-95 | a freshly mounted row has its replies hidden and no reply form, so it submits nothing |
| Comments.ToggleReplying | src/app/components/CommentsPreview.tsx:149 | the Reply button opens or closes the reply form and keeps the typed text |
| Comments.ClosedFormPostsNothing | src/app/components/CommentsPreview.tsx:149-158 | closing the form with text in it and submitting posts nothing; reopening it shows the same text |
| Comments.ReplyToReplyIsNoop | src/app/components/CommentsPreview.tsx:205-206 | submitting from a nested reply's row, whose id is not a top-level id, leaves the list unchanged |
| Comments.RepliesButton | src/app/components/CommentsPreview.tsx:184-201 | the View/Hide toggle exists exactly for a non-empty reply list, shows its count, and reads Hide exactly when replies are shown |
| Composer.Edit | src/app/components/AddComment.tsx:41-44 | typing sets the text unless the field is disabled while submitting |
| Composer.Cancel | src/app/components/AddComment.tsx:67-71 | Cancel clears the text, and does nothing while submitting |
| Composer.Submit | src/app/components/AddComment.tsx:14-19 | blank text or a pending submission leaves the form unchanged; otherwise the untrimmed text becomes pending |
| Composer.Complete | src/app/components/AddComment.tsx:20-24 | completion hands the pending text to the callback, clears the field and ends the submitting phase; without a pending submission nothing happens |
| Composer.BlankSubmitPostsNothing | src/app/components/AddComment.tsx:16 | a blank submission never reaches the callback |
| Composer.WhitespaceSubmitPostsNothing | src/app/components/AddComment.tsx:16 | whitespace-only text never reaches the callback |
| Composer.PostsExactlyOnce | src/app/components/AddComment.tsx:18-23 | a non-blank submission delivers its untrimmed text once, ends in the initial state, and a second completion delivers nothing |
| Composer.PendingTextIsFrozen | src/app/components/AddComment.tsx:44 | while submitting, edits, Cancel and resubmission cannot change what is posted |
| Composer.SubmitThenCompletePrepends | src/app/components/CommentsPreview.tsx:237 | the composer wired to the list puts exactly one new comment with the typed text in front |
| Report.Remove | src/app/components/ReportModal.tsx:65 | the filter keeps exactly the other ids and keeps them free of repeats |
| Report.ToggleIssue | src/app/components/ReportModal.tsx:62-68 | the issue's membership flips, every other issue's membership is kept, and a repeat-free selection stays repeat-free |
| Report.ToggleIssueTwice | src/app/components/ReportModal.tsx:62-67 | toggling an issue twice restores which issues are selected |
| Report.ToggleIssueAddThenRemove | src/app/components/ReportModal.tsx:62-67 | checking then unchecking an unselected issue restores the selection exactly, order included |
| Report.Counter | src/app/components/ReportModal.tsx:190-192 | the counter shows the limit 1000 and the exact UTF-16 code-unit count of the details, which lies between the number of code points and twice that |
| Report.Handle | src/app/components/ReportModal.tsx:70-253 | the only step changes are Next from the first step to details (and only with a selection), Back from details to the first step, and Submit from details to the confirmation; the selection changes only by a checkbox on the first step, where it toggles that issue; the details change only by typing on the details step; X always asks to close, Cancel exactly on the first two steps, Done exactly on the confirmation; closing leaves the dialog unchanged; a step change keeps selection and details |
| Report.NextNeedsSelection | src/app/components/ReportModal.tsx:152-154 | Next moves to the details step exactly when at least one issue is selected |
| Report.BackKeepsInput | src/app/components/ReportModal.tsx:207-208 | Back returns to the first step keeping selection and details |
| Report.SubmitConfirms | src/app/components/ReportModal.tsx:70-73 | Submit moves to the confirmation keeping selection and details |
| Report.DetailsNeverTruncated | src/app/components/ReportModal.tsx:183-191 | the details text is stored verbatim, and the counter exceeds 1000 for longer text |
| Report.RunKeepsValid | src/app/components/ReportModal.tsx:62-73 | after any actions the selection has no repeats and is non-empty past the first step |
| Report.InitialIsValid | src/app/components/ReportModal.tsx:13-15 | the dialog mounts at the first step with no selection and empty details |
| Report.HandleKeepsOptions | src/app/components/ReportModal.tsx:19-60 | the eight taxonomy ids are distinct, and with checkboxes offering only those ids the selection never holds anything else |
| VideoActions.Like | src/app/components/VideoActions.tsx:44-51 | like flips `liked`; `disliked` is cleared when liking and kept when unliking; nothing else changes |
| VideoActions.Dislike | src/app/components/VideoActions.tsx:53-60 | dislike flips `disliked`; `liked` is cleared when disliking and kept when undisliking; nothing else changes |
| VideoActions.DislikeMirrorsLike | src/app/components/VideoActions.tsx:44-60 | dislike is like with the two flags exchanged |
| VideoActions.Save | src/app/components/VideoActions.tsx:79-81 | save flips `saved` and nothing else |
| VideoActions.Clip | src/app/components/VideoActions.tsx:83-85 | clip flips `clipped` and nothing else |
| VideoActions.SaveAndClipInvolutive | src/app/components/VideoActions.tsx:79-85 | save twice and clip twice are the identity |
| VideoActions.Step | src/app/components/VideoActions.tsx:91-97 | no click changes the displayed counts; opening the report dialog only sets its visibility; the dialog's state changes only through its own events while it is shown, so a hidden dialog is frozen |
| VideoActions.StepKeepsExclusive | src/app/components/VideoActions.tsx:44-60 | no click makes the video both liked and disliked |
| VideoActions.RunKeepsExclusive | src/app/components/VideoActions.tsx:44-60 | after any clicks the video is never both liked and disliked, and the like and dislike strings are the ones passed in |
| VideoActions.RunKeepsDialogValid | src/app/components/VideoActions.tsx:175-179 | the report dialog's invariant holds in every reachable action-bar state |
| VideoActions.DoneThenReopenResumes | src/app/components/VideoActions.tsx:175-179 | Done hides the dialog, and reopening shows the same confirmation with the same selection and details |
| VideoActions.CloseChangesOnlyVisibility | src/app/components/VideoActions.tsx:95-97 | closing the dialog by any of its buttons changes only its visibility |
| VideoActions.OpenDialogReceivesEvents | src/app/components/VideoActions.tsx:175-179 | while the dialog is shown, each of its events goes to the dialog, and the bar hides it exactly when the dialog calls `onClose` |
| VideoActions.InitIsValid | src/app/components/VideoActions.tsx:24-29 | the bar mounts with nothing pressed and the dialog hidden at its first step, so its invariants hold from the start |
| Channel.ClickSubscribe | src/app/components/ChannelInfo.tsx:20-36 | the main button flips the subscription; the dropdown is open exactly when now subscribed; the level is kept |
| Channel.SelectLevel | src/app/components/ChannelInfo.tsx:38-41 | selecting a level records it and closes the dropdown |
| Channel.CloseDropdown | src/app/components/ChannelInfo.tsx:106 | the dropdown's close button closes it and changes nothing else |
| Channel.ClickBell | src/app/components/ChannelInfo.tsx:43-45 | the bell flips the dropdown and keeps subscription and level |
| Channel.BellTwiceIsIdentity | src/app/components/ChannelInfo.tsx:43-45 | two bell clicks are the identity |
| Channel.SubscribeThenUnsubscribe | src/app/components/ChannelInfo.tsx:20-36 | subscribing then clicking again leaves the channel unsubscribed, dropdown closed, level kept |
| Channel.Step | src/app/components/ChannelInfo.tsx:20-175 | only selecting a level changes the level, and only while the dropdown is visible (subscribed and open) |
| Channel.RunKeepsValid | src/app/components/ChannelInfo.tsx:98 | the dropdown is open only for a subscriber, so it is visible exactly when open |
| Channel.RunKeepsLevel | src/app/components/ChannelInfo.tsx:20-45 | clicks other than a level selection never change the level |
| Channel.InitIsValid | src/app/components/ChannelInfo.tsx:16-18 | the widget mounts with the dropdown closed, the bell shown exactly for a subscriber, and the bell not crossed out, since the level starts at "all" |
| Description.Toggle | src/app/components/ExpandableDescription.tsx:19-21 | the toggle flips the expanded flag |
| Description.ViewAgrees | src/app/components/ExpandableDescription.tsx:36 | clamp, gradient and the "SHOW MORE" label go together; two toggles are the identity; the box starts collapsed |
| Description.RunEnd | src/app/components/ExpandableDescription.tsx:148 | `\w+` is greedy: the run ends at the end of text or at a non-word character |
| Description.TagAt | src/app/components/ExpandableDescription.tsx:148 | a match is `#` and a maximal non-empty run of word characters, taken from the text at its start |
| Description.ScanFindsEveryStart | src/app/components/ExpandableDescription.tsx:148 | the global left-to-right scan returns one tag for every `#` followed by a word character, in order, none skipped, duplicates kept |
| Description.EveryStartAreTags | src/app/components/ExpandableDescription.tsx:148 | every match is a tag, and there are none exactly when no `#` is followed by a word character |
| Description.MatchAll | src/app/components/ExpandableDescription.tsx:148 | `match` yields null exactly when nothing matches, and otherwise every match |
| Description.Hashtags | src/app/components/ExpandableDescription.tsx:148 | at most 5 tags, the first `min(5, n)` matches in order, each a tag; none for text without a match |
| Description.BareHashIsNoTag | src/app/components/ExpandableDescription.tsx:148 | a `#` not followed by a word character contributes no tag: the matches from it on are the matches from the next character on |
| Share.IndexOf | src/app/components/ShareModal.tsx:217 | the first position of a character, or -1 exactly when it is absent |
| Share.ReplaceFirst | src/app/components/ShareModal.tsx:217 | `replace(':', 'm')` changes only the first colon and keeps the length |
| Share.TimeParamOfMinutesSeconds | src/app/components/ShareModal.tsx:217 | a time `m:ss` gives the parameter `m` + "m" + `ss` |
| Share.OfferedTimeParam | src/app/components/ShareModal.tsx:85 | each offered time gives its expected parameter, for example 1:30 gives 1m30 |
| Share.OfferedTimesAreClockTimes | src/app/components/ShareModal.tsx:85 | every offered time has a colon and no letter m |
| Share.TimeParamRoundTrip | src/app/components/ShareModal.tsx:217 | the start time can be read back from its parameter |
| Share.EmbedCode | src/app/components/ShareModal.tsx:217 | the snippet is the fixed iframe head, the `src` value `url?t=<param>s`, then the fixed tail |
| Share.EmbedCodeDeterminesParam | src/app/components/ShareModal.tsx:217 | two snippets for one URL are equal exactly when their time parameters are |
| Share.EmbedCodeDeterminesTime | src/app/components/ShareModal.tsx:217 | two snippets for one URL and two clock times are equal exactly when the times are |
| Share.SelectTime | src/app/components/ShareModal.tsx:181-197 | on the Embed tab a time button sets exactly that start time and nothing else; on the Share tab there is no such button and nothing changes |
| Share.InitialTimeIsOffered | src/app/components/ShareModal.tsx:28-30 | the dialog opens on the Share tab, not yet copied, with the first offered start time, which is a clock time |
| Share.SelectTab | src/app/components/ShareModal.tsx:104-114 | the tab buttons and the Embed option set the tab and nothing else |
| Share.CopyLink | src/app/components/ShareModal.tsx:126-160 | on the Share tab, copy link puts the URL on the clipboard and only sets `copied`; on the Embed tab nothing is copied |
| Share.CopyEmbed | src/app/components/ShareModal.tsx:181-226 | on the Embed tab, the Copy button puts the displayed snippet on the clipboard and only sets `copied`; on the Share tab nothing is copied |
| Share.CopiedSnippetIsShown | src/app/components/ShareModal.tsx:197-226 | on the Embed tab, choosing an offered time then copying sets that time and `copied`, and puts that time's snippet on the clipboard |

## Left out

- Markup, styling, icons and the static video placeholder. They carry no logic.
- The page's simulated data loading and skeleton. They are timer-driven, with
  no logic beyond handing the loaded record to the components.
- Timers: the reset of the copied flag, the reset of the click animation
  (`clickedButton`), and the dropdown auto-hide. The auto-hide reads a stale
  closure value. The composer's delay is modelled only as the two steps
  `Submit` and `Complete`.
- Browser and foreign calls: clipboard writes, `navigator.share`,
  `window.open`, `alert` and `console.log`. Share, Download and Remove-ads are
  state-preserving events, or are absent. A copy button returns the text it
  would put on the clipboard.
- The WhatsApp, Facebook, X and e-mail share URLs. They depend on
  `encodeURIComponent`, which is not part of this model.
- `Date.now()`: identifiers and reply stamps are parameters.
- DOM event behaviour: a click on a report checkbox may fire both its
  `onChange` and its parent's `onClick`. The model applies one toggle per
  click. The comment row component is a new component type on every render
  of the list (src/app/components/CommentsPreview.tsx:92), so every change of
  the list, including the one made by a successful reply, remounts every row
  with `showReplies`, `isReplying` and `replyText` reset to their initial
  values. The model keeps each row's `Comments.Item` across list changes
  instead.
- The unused `showReplyInput` state of the comment list.
- The header's "Show all"/"Show less" button and the "Show N more" button only
  set `showAll`, which `Comments.Displayed` takes as a parameter.
- Strings are sequences of code points, not UTF-16 code units. `trim` and the
  word class never touch surrogates, so they behave the same. Only the details
  counter depends on UTF-16, and `JsText.Utf16Length` computes it.
- `Composer.Submit`: the handler itself does not check `isSubmitting`. It is
  unreachable while submitting, because the button and the field are both
  disabled, so the model treats such a submission as a no-op.

=== FILE: actions.dfy ===
/** The action bar under the video: like and dislike (mutually exclusive),
    save and clip toggles, and the button that shows the report dialog. The
    displayed like and dislike counts are display strings handed in by the
    page; the flags never change them. */
module VideoActions {

  import Report

  datatype Bar = Bar(
    likes: string,
    dislikes: string,
    liked: bool,
    disliked: bool,
    saved: bool,
    clipped: bool,
    showReport: bool,
    report: Report.Dialog)

  function Init(likes: string, dislikes: string): (r: Bar) {
    Bar(likes, dislikes, false, false, false, false, false, Report.Initial)
  }

  /** The invariant the like and dislike handlers keep. */
  predicate Exclusive(b: Bar) {
    !(b.liked && b.disliked)
  }

  /** `handleLike`: undo a like, or like and drop any dislike. */
  function Like(b: Bar): (r: Bar)
    ensures r.liked == !b.liked
    ensures r.disliked == (b.disliked && b.liked)
    ensures r.(liked := b.liked, disliked := b.disliked) == b
  {
    if b.liked then b.(liked := false) else b.(liked := true, disliked := false)
  }

  /** `handleDislike`: undo a dislike, or dislike and drop any like. */
  function Dislike(b: Bar): (r: Bar)
    ensures r.disliked == !b.disliked
    ensures r.liked == (b.liked && b.disliked)
    ensures r.(liked := b.liked, disliked := b.disliked) == b
  {
    if b.disliked then b.(disliked := false) else b.(disliked := true, liked := false)
  }

  /** Dislike is Like with the two flags exchanged. */
  function Swap(b: Bar): (r: Bar) {
    b.(liked := b.disliked, disliked := b.liked)
  }

  lemma DislikeMirrorsLike(b: Bar)
    ensures Dislike(b) == Swap(Like(Swap(b)))
  {
  }

  /** `handleSave` */
  function Save(b: Bar): (r: Bar)
    ensures r.saved != b.saved && r.(saved := b.saved) == b
  {
    b.(saved := !b.saved)
  }

  /** `handleClip` */
  function Clip(b: Bar): (r: Bar)
    ensures r.clipped != b.clipped && r.(clipped := b.clipped) == b
  {
    b.(clipped := !b.clipped)
  }

  lemma SaveAndClipInvolutive(b: Bar)
    ensures Save(Save(b)) == b && Clip(Clip(b)) == b
  {
  }

  datatype Event =
    | LikeClicked
    | DislikeClicked
    | ShareClicked
    | DownloadClicked
    | SaveClicked
    | ClipClicked
    | ReportClicked
    | InDialog(e: Report.Event)

  /** One click. Share and Download only call browser APIs, so the bar's
      state is unchanged. A dialog event is delivered only while the dialog
      is shown; when the dialog asks to close, `closeReportModal` hides it
      and the dialog keeps its state. */
  function Step(b: Bar, e: Event): (r: Bar)
    ensures r.likes == b.likes && r.dislikes == b.dislikes
    ensures e.ReportClicked? ==> r == b.(showReport := true)
    ensures r.report != b.report ==> b.showReport && e.InDialog?
  {
    match e
    case LikeClicked => Like(b)
    case DislikeClicked => Dislike(b)
    case ShareClicked => b
    case DownloadClicked => b
    case SaveClicked => Save(b)
    case ClipClicked => Clip(b)
    case ReportClicked => b.(showReport := true)
    case InDialog(de) =>
      if b.showReport then
        var o := Report.Handle(b.report, de);
        b.(report := o.dialog, showReport := !o.closeRequested)
      else b
  }

  lemma StepKeepsExclusive(b: Bar, e: Event)
    requires Exclusive(b)
    ensures Exclusive(Step(b, e))
  {
  }

  function Run(b: Bar, es: seq<Event>): (r: Bar)
    decreases |es|
  {
    if |es| == 0 then b else Run(Step(b, es[0]), es[1..])
  }

  /** After any sequence of clicks the video is never both liked and
      disliked, and the displayed counts are those the page passed in. */
  lemma {:induction false} RunKeepsExclusive(b: Bar, es: seq<Event>)
    requires Exclusive(b)
    ensures Exclusive(Run(b, es))
    ensures Run(b, es).likes == b.likes && Run(b, es).dislikes == b.dislikes
    decreases |es|
  {
    if |es| > 0 {
      StepKeepsExclusive(b, es[0]);
      RunKeepsExclusive(Step(b, es[0]), es[1..]);
    }
  }

  /** The dialog's own invariant holds in every reachable bar state. */
  lemma {:induction false} RunKeepsDialogValid(b: Bar, es: seq<Event>)
    requires Report.Valid(b.report)
    ensures Report.Valid(Run(b, es).report)
    decreases |es|
  {
    if |es| > 0 {
      var e := es[0];
      if e.InDialog? && b.showReport {
        Report.RunKeepsValid(b.report, [e.e]);
        assert Report.Run(b.report, [e.e]) == Report.Handle(b.report, e.e).dialog;
      }
      RunKeepsDialogValid(Step(b, e), es[1..]);
    }
  }

  /** The bar as mounted: nothing pressed and the dialog hidden at its first
      step, so the invariants of the `Run` lemmas hold from the start. */
  lemma InitIsValid(likes: string, dislikes: string)
    ensures Exclusive(Init(likes, dislikes)) && Report.Valid(Init(likes, dislikes).report)
    ensures !Init(likes, dislikes).showReport && Init(likes, dislikes).report.step == Report.Type
  {
    Report.InitialIsValid();
  }

  /** While the dialog is shown, each of its events goes to the dialog, and
      the bar hides it exactly when the dialog asks to close. */
  lemma OpenDialogReceivesEvents(b: Bar, de: Report.Event)
    requires b.showReport
    ensures Step(b, InDialog(de)).report == Report.Handle(b.report, de).dialog
    ensures Step(b, InDialog(de)).showReport == !Report.Handle(b.report, de).closeRequested
  {
  }

  /** Done on the confirmation hides the dialog; reopening it shows the
      confirmation again, with the same selection and details. */
  lemma DoneThenReopenResumes(b: Bar)
    requires b.showReport && b.report.step == Report.Confirmation
    ensures !Step(b, InDialog(Report.Done)).showReport
    ensures Step(Step(b, InDialog(Report.Done)), ReportClicked) == b
  {
  }

  /** Closing the dialog by any of its buttons changes nothing but its visibility. */
  lemma CloseChangesOnlyVisibility(b: Bar, de: Report.Event)
    requires b.showReport
    requires Report.Handle(b.report, de).closeRequested
    ensures Step(b, InDialog(de)) == b.(showReport := false)
  {
  }
}

=== FILE: channel.dfy ===
/** The channel row: the Subscribe button, the notification dropdown and
    the bell button shown to subscribers. */
module Channel {

  datatype Level = All | Personalized | NoNotifications

  datatype Widget = Widget(subscribed: bool, dropdownOpen: bool, level: Level)

  /** Mounted from the channel's `isSubscribed` flag, dropdown closed, level "all". */
  function Init(isSubscribed: bool): (r: Widget) {
    Widget(isSubscribed, false, All)
  }

  /** `handleSubscribe`: subscribing opens the dropdown; clicking again while
      subscribed unsubscribes and closes it. The level is kept either way. */
  function ClickSubscribe(w: Widget): (r: Widget)
    ensures r.subscribed == !w.subscribed
    ensures r.dropdownOpen == r.subscribed
    ensures r.level == w.level
  {
    if !w.subscribed then w.(dropdownOpen := true, subscribed := true)
    else w.(dropdownOpen := false, subscribed := false)
  }

  /** `handleNotificationSelect`: record the level and close the dropdown. */
  function SelectLevel(w: Widget, l: Level): (r: Widget)
    ensures r.level == l && !r.dropdownOpen && r.subscribed == w.subscribed
  {
    w.(level := l, dropdownOpen := false)
  }

  /** The dropdown's own close button. */
  function CloseDropdown(w: Widget): (r: Widget)
    ensures !r.dropdownOpen && r.subscribed == w.subscribed && r.level == w.level
  {
    w.(dropdownOpen := false)
  }

  /** `handleBellClick` */
  function ClickBell(w: Widget): (r: Widget)
    ensures r.dropdownOpen == !w.dropdownOpen
    ensures r.subscribed == w.subscribed && r.level == w.level
  {
    w.(dropdownOpen := !w.dropdownOpen)
  }

  lemma BellTwiceIsIdentity(w: Widget)
    ensures ClickBell(ClickBell(w)) == w
  {
  }

  /** Subscribing and then unsubscribing leaves the widget unsubscribed with
      a closed dropdown and the same level. */
  lemma SubscribeThenUnsubscribe(w: Widget)
    requires !w.subscribed
    ensures ClickSubscribe(ClickSubscribe(w)) == w.(dropdownOpen := false)
  {
  }

  predicate DropdownVisible(w: Widget) {
    w.subscribed && w.dropdownOpen
  }

  predicate BellVisible(w: Widget) {
    w.subscribed
  }

  /** The bell shows the crossed-out icon exactly for the level "none". */
  predicate BellOff(w: Widget) {
    w.level == NoNotifications
  }

  datatype Event =
    | SubscribeClicked
    | LevelSelected(l: Level)
    | DropdownClosed
    | BellClicked

  /** One click. The level buttons and the close button exist only while
      the dropdown is visible, and the bell only while subscribed. */
  function Step(w: Widget, e: Event): (r: Widget)
    ensures !e.LevelSelected? ==> r.level == w.level
    ensures r.level != w.level ==> e.LevelSelected? && DropdownVisible(w)
  {
    match e
    case SubscribeClicked => ClickSubscribe(w)
    case LevelSelected(l) => if DropdownVisible(w) then SelectLevel(w, l) else w
    case DropdownClosed => if DropdownVisible(w) then CloseDropdown(w) else w
    case BellClicked => if BellVisible(w) then ClickBell(w) else w
  }

  /** The dropdown is only ever open for a subscriber, so its open flag and
      its visibility agree. */
  ghost predicate Valid(w: Widget) {
    w.dropdownOpen ==> w.subscribed
  }

  function Run(w: Widget, es: seq<Event>): (r: Widget)
    decreases |es|
  {
    if |es| == 0 then w else Run(Step(w, es[0]), es[1..])
  }

  lemma {:induction false} RunKeepsValid(w: Widget, es: seq<Event>)
    requires Valid(w)
    ensures Valid(Run(w, es))
    ensures DropdownVisible(Run(w, es)) <==> Run(w, es).dropdownOpen
    decreases |es|
  {
    if |es| > 0 {
      RunKeepsValid(Step(w, es[0]), es[1..]);
    }
  }

  /** Only selecting a level changes it. */
  lemma {:induction false} RunKeepsLevel(w: Widget, es: seq<Event>)
    requires forall k :: 0 <= k < |es| ==> !es[k].LevelSelected?
    ensures Run(w, es).level == w.level
    decreases |es|
  {
    if |es| > 0 {
      RunKeepsLevel(Step(w, es[0]), es[1..]);
    }
  }

  lemma InitIsValid(isSubscribed: bool)
    ensures Valid(Init(isSubscribed)) && !DropdownVisible(Init(isSubscribed))
    ensures BellVisible(Init(isSubscribed)) == isSubscribed && !BellOff(Init(isSubscribed))
  {
  }
}

=== FILE: comments.dfy ===
/** The comment list owned by the comments section: a top-level list of
    comments, each with an optional list of replies, and the pure updates
    the section applies to it. Fresh identifiers, which the component takes
    from the clock, are parameters here. */
module Comments {

  import opened Optional
  import opened JsText

  datatype User = User(name: string, avatar: string)

  datatype Comment = Comment(
    id: string,
    user: User,
    text: string,
    likes: string,       // a display string such as "1.2K", never parsed
    timestamp: string,   // a display string such as "2 days ago"
    isLiked: bool,
    replies: ReplyList)

  /** The optional `replies` array of a comment. */
  datatype ReplyList = Missing | Present(items: seq<Comment>)

  /** The placeholder author of every comment and reply written on this page. */
  const You := User("You", "https://i.pravatar.cc/150?img=3")

  /** `comment.replies || []`: a missing reply list reads as empty. */
  function RepliesOf(c: Comment): (rs: seq<Comment>) {
    match c.replies
    case Present(rs) => rs
    case Missing => []
  }

  /** A comment written in the top-level composer: it carries an empty reply list. */
  function NewComment(id: string, text: string): (c: Comment) {
    Comment(id, You, text, "0", "Just now", false, Present([]))
  }

  /** A reply: built like a comment but without a reply list at all. */
  function NewReply(id: string, text: string): (c: Comment) {
    Comment(id, You, text, "0", "Just now", false, Missing)
  }

  /** The identifier a reply receives: the parent's id, a dash, and the clock reading. */
  function ReplyId(parentId: string, stamp: string): (id: string) {
    parentId + "-" + stamp
  }

  function TopIds(cs: seq<Comment>): (ids: seq<string>)
    ensures |ids| == |cs|
    ensures forall k :: 0 <= k < |cs| ==> ids[k] == cs[k].id
  {
    if |cs| == 0 then [] else [cs[0].id] + TopIds(cs[1..])
  }

  /** The identifiers of one comment and, in order, of its replies. */
  function IdsOf(c: Comment): (ids: seq<string>)
    decreases c
  {
    [c.id] + (match c.replies case Present(rs) => AllIds(rs) case Missing => [])
  }

  /** Every identifier in the tree, in pre-order: each comment, then its replies. */
  function AllIds(cs: seq<Comment>): (ids: seq<string>)
    decreases cs
  {
    if |cs| == 0 then [] else IdsOf(cs[0]) + AllIds(cs[1..])
  }

  /** No identifier occurs twice anywhere in the tree. */
  ghost predicate UniqueIds(cs: seq<Comment>) {
    forall x :: multiset(AllIds(cs))[x] <= 1
  }

  // ---------------------------------------------------------------------
  // Like

  /** `handleLikeComment`: flip `isLiked` on the top-level comments with
      this id. Replies are not visited, and the likes string is untouched. */
  function ToggleLike(cs: seq<Comment>, id: string): (r: seq<Comment>)
    ensures |r| == |cs|
    ensures forall k :: 0 <= k < |cs| ==> r[k].isLiked == (cs[k].isLiked != (cs[k].id == id))
    ensures forall k :: 0 <= k < |cs| ==> r[k].(isLiked := cs[k].isLiked) == cs[k]
  {
    if |cs| == 0 then []
    else
      var c := cs[0];
      [if c.id == id then c.(isLiked := !c.isLiked) else c] + ToggleLike(cs[1..], id)
  }

  /** Liking the same comment twice restores the list exactly. */
  lemma ToggleLikeTwice(cs: seq<Comment>, id: string)
    ensures ToggleLike(ToggleLike(cs, id), id) == cs
  {
    var r := ToggleLike(ToggleLike(cs, id), id);
    assert forall k :: 0 <= k < |cs| ==> r[k] == cs[k];
  }

  /** An id that names no top-level comment (a reply's id, say) changes nothing. */
  lemma ToggleLikeUnknownId(cs: seq<Comment>, id: string)
    requires id !in TopIds(cs)
    ensures ToggleLike(cs, id) == cs
  {
    var r := ToggleLike(cs, id);
    forall k | 0 <= k < |cs|
      ensures r[k] == cs[k]
    {
      assert TopIds(cs)[k] == cs[k].id;
    }
  }

  // ---------------------------------------------------------------------
  // New comment

  /** `handleAddComment`: the new comment goes in front of the existing ones. */
  function AddComment(cs: seq<Comment>, text: string, freshId: string): (r: seq<Comment>)
    ensures |r| == |cs| + 1 && r[1..] == cs
    ensures r[0].id == freshId && r[0].text == text
    ensures r[0].user == You && r[0].likes == "0" && r[0].timestamp == "Just now"
    ensures !r[0].isLiked && r[0].replies == Present([])
  {
    [NewComment(freshId, text)] + cs
  }

  lemma {:induction false} AllIdsAppend(a: seq<Comment>, b: seq<Comment>)
    ensures AllIds(a + b) == AllIds(a) + AllIds(b)
    decreases |a|
  {
    if |a| == 0 {
      assert a + b == b;
    } else {
      assert (a + b)[0] == a[0];
      assert (a + b)[1..] == a[1..] + b;
      AllIdsAppend(a[1..], b);
    }
  }

  /** A comment with a fresh id keeps every identifier in the tree unique. */
  lemma AddCommentKeepsIdsUnique(cs: seq<Comment>, text: string, freshId: string)
    requires UniqueIds(cs)
    requires freshId !in AllIds(cs)
    ensures UniqueIds(AddComment(cs, text, freshId))
    ensures multiset(AllIds(AddComment(cs, text, freshId))) == multiset(AllIds(cs)) + multiset{freshId}
  {
    var r := AddComment(cs, text, freshId);
    assert r[1..] == cs;
    assert AllIds(r) == IdsOf(r[0]) + AllIds(cs);
    assert IdsOf(r[0]) == [freshId];
  }

  // ---------------------------------------------------------------------
  // Reply

  /** The target comment after a reply is appended to it. */
  function WithReply(c: Comment, reply: Comment): (r: Comment) {
    c.(replies := Present(RepliesOf(c) + [reply]))
  }

  /** `handleAddReply`: append one new reply to every top-level comment with
      this id; every other comment is returned as it was. */
  function AddReply(cs: seq<Comment>, parentId: string, text: string, stamp: string): (r: seq<Comment>)
    ensures |r| == |cs|
    ensures forall k :: 0 <= k < |cs| && cs[k].id != parentId ==> r[k] == cs[k]
    ensures forall k :: 0 <= k < |cs| && cs[k].id == parentId ==>
              && r[k].(replies := cs[k].replies) == cs[k]
              && RepliesOf(r[k]) == RepliesOf(cs[k]) + [NewReply(ReplyId(parentId, stamp), text)]
  {
    if |cs| == 0 then []
    else
      var c := cs[0];
      [if c.id == parentId then WithReply(c, NewReply(ReplyId(parentId, stamp), text)) else c]
      + AddReply(cs[1..], parentId, text, stamp)
  }

  /** A parent id that names no top-level comment leaves the whole list as it
      was; this is what the Reply button of a nested reply does. */
  lemma AddReplyUnknownParent(cs: seq<Comment>, parentId: string, text: string, stamp: string)
    requires parentId !in TopIds(cs)
    ensures AddReply(cs, parentId, text, stamp) == cs
  {
    var r := AddReply(cs, parentId, text, stamp);
    forall k | 0 <= k < |cs|
      ensures r[k] == cs[k]
    {
      assert TopIds(cs)[k] == cs[k].id;
    }
  }

  /** Appending a reply to a comment adds the reply's id to the comment's ids. */
  lemma IdsWithReply(c: Comment, reply: Comment)
    requires reply.replies == Missing
    ensures IdsOf(WithReply(c, reply)) == IdsOf(c) + [reply.id]
  {
    AllIdsAppend(RepliesOf(c), [reply]);
    assert AllIds([reply]) == [reply.id];
  }

  /** The head case: the first comment is the only one with the parent id. */
  lemma AddReplyIdsAtHead(cs: seq<Comment>, parentId: string, text: string, stamp: string)
    requires |cs| > 0 && cs[0].id == parentId && parentId !in TopIds(cs[1..])
    ensures AllIds(AddReply(cs, parentId, text, stamp)) == IdsOf(cs[0]) + [ReplyId(parentId, stamp)] + AllIds(cs[1..])
  {
    var reply := NewReply(ReplyId(parentId, stamp), text);
    var r := AddReply(cs, parentId, text, stamp);
    AddReplyUnknownParent(cs[1..], parentId, text, stamp);
    assert r == [WithReply(cs[0], reply)] + cs[1..];
    IdsWithReply(cs[0], reply);
  }

  /** When exactly one top-level comment carries the parent id, the tree
      gains exactly the new reply's identifier and loses none. */
  lemma {:induction false} AddReplyIds(cs: seq<Comment>, parentId: string, text: string, stamp: string)
    requires multiset(TopIds(cs))[parentId] == 1
    ensures multiset(AllIds(AddReply(cs, parentId, text, stamp)))
            == multiset(AllIds(cs)) + multiset{ReplyId(parentId, stamp)}
    decreases |cs|
  {
    assert |cs| > 0;
    assert TopIds(cs) == [cs[0].id] + TopIds(cs[1..]);
    assert AllIds(cs) == IdsOf(cs[0]) + AllIds(cs[1..]);
    if cs[0].id == parentId {
      assert multiset(TopIds(cs[1..]))[parentId] == 0;
      AddReplyIdsAtHead(cs, parentId, text, stamp);
    } else {
      AddReplyIdsPastHead(cs, parentId, text, stamp);
      AddReplyIds(cs[1..], parentId, text, stamp);
    }
  }

  /** The tail case: the first comment is kept and contributes its own ids. */
  lemma AddReplyIdsPastHead(cs: seq<Comment>, parentId: string, text: string, stamp: string)
    requires |cs| > 0 && cs[0].id != parentId
    ensures AllIds(AddReply(cs, parentId, text, stamp)) == IdsOf(cs[0]) + AllIds(AddReply(cs[1..], parentId, text, stamp))
  {
    var rest := AddReply(cs[1..], parentId, text, stamp);
    assert AddReply(cs, parentId, text, stamp) == [cs[0]] + rest;
    assert ([cs[0]] + rest)[1..] == rest;
  }

  /** Top-level identifiers are among the tree's identifiers. */
  lemma {:induction false} TopIdsInAllIds(cs: seq<Comment>)
    ensures multiset(TopIds(cs)) <= multiset(AllIds(cs))
    decreases |cs|
  {
    if |cs| > 0 {
      TopIdsInAllIds(cs[1..]);
      assert TopIds(cs) == [cs[0].id] + TopIds(cs[1..]);
    }
  }

  /** A reply to an existing comment of a tree with unique ids adds exactly
      one comment to the tree and keeps the ids unique, given a fresh reply id. */
  lemma AddReplyKeepsIdsUnique(cs: seq<Comment>, parentId: string, text: string, stamp: string)
    requires UniqueIds(cs)
    requires parentId in TopIds(cs)
    requires ReplyId(parentId, stamp) !in AllIds(cs)
    ensures UniqueIds(AddReply(cs, parentId, text, stamp))
    ensures |AllIds(AddReply(cs, parentId, text, stamp))| == |AllIds(cs)| + 1
  {
    TopIdsInAllIds(cs);
    assert multiset(TopIds(cs))[parentId] <= multiset(AllIds(cs))[parentId] <= 1;
    AddReplyIds(cs, parentId, text, stamp);
    var r := AddReply(cs, parentId, text, stamp);
    assert |multiset(AllIds(r))| == |multiset(AllIds(cs))| + 1;
  }

  // ---------------------------------------------------------------------
  // Visible slice and "Show N more"

  /** `displayedComments`: everything when `showAll`, otherwise `slice(0, 3)`. */
  function Displayed(cs: seq<Comment>, showAll: bool): (r: seq<Comment>)
    ensures |r| == if showAll then |cs| else Min(3, |cs|)
    ensures r == cs[..|r|]
  {
    if showAll then cs else cs[..Min(3, |cs|)]
  }

  /** The "Show N more comments" button: present with N when some comments are hidden. */
  function ShowMoreButton(cs: seq<Comment>, showAll: bool): (n: Option<nat>) {
    if !showAll && |cs| > 3 then Some(|cs| - 3) else None
  }

  /** The button appears exactly when the visible slice is a strict prefix,
      and its count is the number of comments left out. */
  lemma ShowMoreCountsHidden(cs: seq<Comment>, showAll: bool)
    ensures ShowMoreButton(cs, showAll).Some? <==> |Displayed(cs, showAll)| < |cs|
    ensures ShowMoreButton(cs, showAll).Some? ==>
              ShowMoreButton(cs, showAll).value == |cs| - |Displayed(cs, showAll)|
    ensures ShowMoreButton(cs, showAll).None? ==> Displayed(cs, showAll) == cs
  {
  }

  // ---------------------------------------------------------------------
  // One comment's row: reply input and the replies toggle

  datatype Item = Item(showReplies: bool, isReplying: bool, replyText: string)

  const ItemInitial := Item(false, false, "")

  /** The reply input's submit button is disabled exactly for blank text. */
  predicate ReplySubmitDisabled(it: Item) {
    IsBlank(it.replyText)
  }

  /** The row's Reply button opens or closes the reply form; the typed text
      is kept either way. */
  function ToggleReplying(it: Item): (r: Item)
    ensures r.isReplying != it.isReplying
    ensures r.replyText == it.replyText && r.showReplies == it.showReplies
  {
    it.(isReplying := !it.isReplying)
  }

  /** A freshly mounted row has no reply form, so it submits nothing. */
  lemma InitialRowPostsNothing(commentId: string, cs: seq<Comment>, stamp: string)
    ensures !ItemInitial.isReplying && !ItemInitial.showReplies
    ensures SubmitReply(ItemInitial, commentId, cs, stamp) == (ItemInitial, cs)
  {
  }

  /** `handleSubmitReply` on the row of comment `commentId`. The form exists
      only while the row is replying, so a closed form submits nothing; blank
      text does nothing; otherwise the reply is added and the input cleared
      and closed. */
  function SubmitReply(it: Item, commentId: string, cs: seq<Comment>, stamp: string): (r: (Item, seq<Comment>))
    ensures !it.isReplying || IsBlank(it.replyText) ==> r == (it, cs)
    ensures it.isReplying && !IsBlank(it.replyText) ==>
              && r.0 == it.(replyText := "", isReplying := false)
              && r.1 == AddReply(cs, commentId, it.replyText, stamp)
  {
    if !it.isReplying || IsBlank(it.replyText) then (it, cs)
    else (it.(replyText := "", isReplying := false), AddReply(cs, commentId, it.replyText, stamp))
  }

  /** Closing the form with text still in it and submitting posts nothing;
      reopening it brings the same text back. */
  lemma ClosedFormPostsNothing(it: Item, commentId: string, cs: seq<Comment>, stamp: string)
    requires it.isReplying
    ensures SubmitReply(ToggleReplying(it), commentId, cs, stamp).1 == cs
    ensures ToggleReplying(ToggleReplying(it)) == it
  {
  }

  /** The disabled submit button and the handler's guard agree: whenever the
      button is disabled, submitting changes nothing. */
  lemma DisabledReplySubmitIsNoop(it: Item, commentId: string, cs: seq<Comment>, stamp: string)
    requires ReplySubmitDisabled(it)
    ensures SubmitReply(it, commentId, cs, stamp) == (it, cs)
  {
  }

  /** Submitting from the row of a reply (whose id is not a top-level id)
      closes that row's input but leaves the list unchanged. */
  lemma ReplyToReplyIsNoop(it: Item, replyId: string, cs: seq<Comment>, stamp: string)
    requires replyId !in TopIds(cs)
    ensures SubmitReply(it, replyId, cs, stamp).1 == cs
  {
    if it.isReplying && !IsBlank(it.replyText) {
      AddReplyUnknownParent(cs, replyId, it.replyText, stamp);
    }
  }

  datatype RepliesLabel = View(count: nat) | Hide(count: nat)

  /** The "View N replies" / "Hide N replies" toggle, shown only for a
      non-empty reply list. */
  function RepliesButton(c: Comment, showReplies: bool): (r: Option<RepliesLabel>)
    ensures r.Some? <==> |RepliesOf(c)| > 0
    ensures r.Some? ==> r.value.count == |RepliesOf(c)| && (r.value.Hide? <==> showReplies)
  {
    match c.replies
    case Present(rs) =>
      if |rs| > 0 then Some(if showReplies then Hide(|rs|) else View(|rs|)) else None
    case Missing => None
  }
}

=== FILE: composer.dfy ===
/** The top-level comment composer: a text field, a Cancel button and a
    Comment button. A submission first enters a pending phase (the component
    waits on a timer) and then completes by handing the text to the comment
    list. The delay itself is not modelled, only the two phases. */
module Composer {

  import opened Optional
  import opened JsText
  import Comments

  /** `pending` holds the text captured by the waiting timer; the component's
      `isSubmitting` flag is `pending.Some?`. */
  datatype Form = Form(text: string, pending: Option<string>)

  const Initial := Form("", None)

  predicate Submitting(c: Form) {
    c.pending.Some?
  }

  /** The Comment button is disabled for blank text or while submitting. */
  predicate SubmitDisabled(c: Form) {
    IsBlank(c.text) || Submitting(c)
  }

  /** The text field and the Cancel button are disabled while submitting. */
  predicate InputDisabled(c: Form) {
    Submitting(c)
  }

  /** Typing into the field; a disabled field ignores input. */
  function Edit(c: Form, t: string): (r: Form)
    ensures InputDisabled(c) ==> r == c
    ensures !InputDisabled(c) ==> r.text == t && !Submitting(r)
  {
    if InputDisabled(c) then c else c.(text := t)
  }

  /** The Cancel button clears the text; it is disabled while submitting. */
  function Cancel(c: Form): (r: Form)
    ensures InputDisabled(c) ==> r == c
    ensures !InputDisabled(c) ==> r.text == [] && r.pending == c.pending
  {
    if InputDisabled(c) then c else c.(text := "")
  }

  /** `handleSubmit`: blank text returns early; otherwise the phase becomes
      pending with the text as typed (untrimmed). While submitting, both the
      button and the field are disabled, so no second submission arrives. */
  function Submit(c: Form): (r: Form)
    ensures IsBlank(c.text) || Submitting(c) ==> r == c
    ensures !IsBlank(c.text) && !Submitting(c) ==> r.text == c.text && r.pending == Some(c.text)
  {
    if SubmitDisabled(c) then c else c.(pending := Some(c.text))
  }

  /** The timer fires: the captured text is handed to `onAddComment` (the
      second component of the result), the field is cleared and the phase
      ends. Without a pending submission nothing happens. */
  function Complete(c: Form): (r: (Form, Option<string>))
    ensures c.pending.None? ==> r == (c, None)
    ensures c.pending.Some? ==> r.1 == c.pending && r.0.text == [] && !Submitting(r.0)
  {
    match c.pending
    case Some(t) => (Form("", None), Some(t))
    case None => (c, None)
  }

  /** A blank submission never reaches the callback. */
  lemma BlankSubmitPostsNothing(c: Form)
    requires !Submitting(c) && IsBlank(c.text)
    ensures Submit(c) == c
    ensures Complete(Submit(c)).1 == None
  {
  }

  /** A whitespace-only text is blank, so submitting it posts nothing. */
  lemma WhitespaceSubmitPostsNothing(c: Form)
    requires !Submitting(c) && AllSpace(c.text)
    ensures Complete(Submit(c)).1 == None
  {
    BlankIffAllSpace(c.text);
  }

  /** A non-blank submission posts its untrimmed text exactly once: the first
      completion delivers it and a second completion delivers nothing. */
  lemma PostsExactlyOnce(c: Form)
    requires !Submitting(c) && !IsBlank(c.text)
    ensures Submitting(Submit(c))
    ensures Complete(Submit(c)).1 == Some(c.text)
    ensures Complete(Submit(c)).0 == Initial
    ensures Complete(Complete(Submit(c)).0).1 == None
  {
  }

  /** Edits and Cancel during the pending phase cannot change what is posted. */
  lemma PendingTextIsFrozen(c: Form, t: string)
    requires Submitting(c)
    ensures Complete(Edit(c, t)).1 == Complete(c).1
    ensures Complete(Cancel(c)).1 == Complete(c).1
    ensures Complete(Submit(c)).1 == Complete(c).1
  {
  }

  /** The composer wired to the comment list: a non-blank submission, once
      completed, puts exactly one new comment with the typed text in front
      of the list. */
  lemma SubmitThenCompletePrepends(c: Form, cs: seq<Comments.Comment>, freshId: string)
    requires !Submitting(c) && !IsBlank(c.text)
    ensures var posted := Complete(Submit(c)).1;
            && posted.Some?
            && var r := Comments.AddComment(cs, posted.value, freshId);
            && |r| == |cs| + 1 && r[1..] == cs && r[0].text == c.text
  {
  }
}

=== FILE: description.dfy ===
/** The description box: a collapsed/expanded toggle and the hashtag row,
    which shows the first five matches of `/#\w+/g` in the description. */
module Description {

  import opened Optional
  import opened JsText

  const MaxTags := 5

  // ---------------------------------------------------------------------
  // Expand / collapse

  /** Starts collapsed (`isExpanded` is false). */
  const InitiallyExpanded := false

  /** `toggleDescription` */
  function Toggle(expanded: bool): (r: bool)
    ensures r != expanded
  {
    !expanded
  }

  /** The text block is clamped to a fixed height exactly when collapsed. */
  predicate Clamped(expanded: bool) {
    !expanded
  }

  /** The fade-out overlay is drawn exactly when collapsed. */
  predicate Gradient(expanded: bool) {
    !expanded
  }

  function Label(expanded: bool): (l: string) {
    if expanded then "SHOW LESS" else "SHOW MORE"
  }

  /** Clamp, overlay and the "SHOW MORE" label always go together, and two
      toggles return to the same view. */
  lemma ViewAgrees(expanded: bool)
    ensures Clamped(expanded) <==> Gradient(expanded)
    ensures Clamped(expanded) <==> Label(expanded) == "SHOW MORE"
    ensures Toggle(Toggle(expanded)) == expanded
    ensures Clamped(InitiallyExpanded)
  {
  }

  // ---------------------------------------------------------------------
  // Hashtags

  /** A match of `#\w+` can begin at position p: a `#` followed by a word character. */
  predicate MatchStartsAt(s: string, p: nat) {
    p + 1 < |s| && s[p] == '#' && IsWordChar(s[p + 1])
  }

  /** The end of the run of word characters that begins at j. */
  function RunEnd(s: string, j: nat): (e: nat)
    requires j <= |s|
    ensures j <= e <= |s|
    ensures forall k :: j <= k < e ==> IsWordChar(s[k])
    ensures e == |s| || !IsWordChar(s[e])
    decreases |s| - j
  {
    if j < |s| && IsWordChar(s[j]) then RunEnd(s, j + 1) else j
  }

  /** The text `\w+` greedily matches after the `#` at p. */
  function TagAt(s: string, p: nat): (t: string)
    requires MatchStartsAt(s, p)
    ensures IsTag(t)
    ensures p + |t| <= |s| && t == s[p..p + |t|]
    ensures p + |t| == |s| || !IsWordChar(s[p + |t|])
  {
    s[p..RunEnd(s, p + 1)]
  }

  /** `#` followed by a non-empty run of word characters. */
  predicate IsTag(t: string) {
    |t| >= 2 && t[0] == '#' && forall k :: 1 <= k < |t| ==> IsWordChar(t[k])
  }

  /** The global scan of the regular-expression engine from position i:
      after a match it resumes at the match's end, otherwise one character on. */
  function Scan(s: string, i: nat): (ts: seq<string>)
    requires i <= |s|
    decreases |s| - i
  {
    if i == |s| then []
    else if MatchStartsAt(s, i) then [TagAt(s, i)] + Scan(s, RunEnd(s, i + 1))
    else Scan(s, i + 1)
  }

  /** The reference reading: one tag for every position holding a `#`
      followed by a word character, in order of position. */
  function EveryStart(s: string, i: nat): (ts: seq<string>)
    requires i <= |s|
    decreases |s| - i
  {
    if i == |s| then []
    else (if MatchStartsAt(s, i) then [TagAt(s, i)] else []) + EveryStart(s, i + 1)
  }

  /** No match starts inside a run of word characters, since `#` is not one. */
  lemma {:induction false} EveryStartSkipsWordRun(s: string, j: nat, e: nat)
    requires j <= e <= |s|
    requires forall k :: j <= k < e ==> IsWordChar(s[k])
    ensures EveryStart(s, j) == EveryStart(s, e)
    decreases e - j
  {
    if j < e {
      assert !MatchStartsAt(s, j);
      EveryStartSkipsWordRun(s, j + 1, e);
    }
  }

  /** The engine's scan finds exactly the tags of the reference reading:
      matches never overlap and none is skipped. */
  lemma {:induction false} ScanFindsEveryStart(s: string, i: nat)
    requires i <= |s|
    ensures Scan(s, i) == EveryStart(s, i)
    decreases |s| - i
  {
    if i < |s| {
      if MatchStartsAt(s, i) {
        var e := RunEnd(s, i + 1);
        EveryStartSkipsWordRun(s, i + 1, e);
        ScanFindsEveryStart(s, e);
      } else {
        ScanFindsEveryStart(s, i + 1);
      }
    }
  }

  /** Every item of the reference reading is a tag. */
  lemma {:induction false} EveryStartAreTags(s: string, i: nat)
    requires i <= |s|
    ensures forall t :: t in EveryStart(s, i) ==> IsTag(t)
    ensures EveryStart(s, i) == [] <==> forall p :: i <= p < |s| ==> !MatchStartsAt(s, p)
    decreases |s| - i
  {
    if i < |s| {
      EveryStartAreTags(s, i + 1);
    }
  }

  /** `description.match(/#\w+/g)`: every match, or null when there is none. */
  function MatchAll(s: string): (r: Option<seq<string>>)
    ensures r.None? <==> forall p :: 0 <= p < |s| ==> !MatchStartsAt(s, p)
    ensures r.Some? ==> r.value == EveryStart(s, 0) && |r.value| > 0
  {
    ScanFindsEveryStart(s, 0);
    EveryStartAreTags(s, 0);
    var ms := Scan(s, 0);
    if |ms| == 0 then None else Some(ms)
  }

  /** `?.slice(0, 5)`: the tags shown, none when the match was null. */
  function Hashtags(s: string): (r: seq<string>)
    ensures |r| <= MaxTags
    ensures |r| == Min(MaxTags, |EveryStart(s, 0)|)
    ensures r == EveryStart(s, 0)[..|r|]
    ensures forall t :: t in r ==> IsTag(t)
    ensures (forall p :: 0 <= p < |s| ==> !MatchStartsAt(s, p)) ==> r == []
  {
    EveryStartAreTags(s, 0);
    match MatchAll(s)
    case None => []
    case Some(ms) => ms[..Min(MaxTags, |ms|)]
  }

  /** A `#` that is not followed by a word character contributes no tag:
      the tags found from it on are those found from the next character on. */
  lemma BareHashIsNoTag(s: string, p: nat)
    requires p < |s| && s[p] == '#'
    requires p + 1 == |s| || !IsWordChar(s[p + 1])
    ensures EveryStart(s, p) == EveryStart(s, p + 1)
  {
  }
}

=== FILE: jstext.dfy ===
/** The optional value used wherever a field or result may be absent
    (an optional `replies` array, a `match` that found nothing, a pending
    submission). */
module Optional {

  datatype Option<+T> = None | Some(value: T)
}

/** The few JavaScript string and array operations the components rely on.
    Strings are sequences of Unicode code points. */
module JsText {

  function Min(a: int, b: int): (m: int) {
    if a <= b then a else b
  }

  /** A character that `String.prototype.trim` strips: an ECMAScript
      WhiteSpace (TAB, VT, FF, ZWNBSP and every Zs space) or LineTerminator
      (LF, CR, LS, PS). */
  predicate IsJsSpace(c: char) {
    || c == '\t' || c == '\n' || c == '\U{000B}' || c == '\U{000C}' || c == '\r'
    || c == ' ' || c == '\U{00A0}' || c == '\U{1680}'
    || ('\U{2000}' <= c <= '\U{200A}')
    || c == '\U{2028}' || c == '\U{2029}' || c == '\U{202F}' || c == '\U{205F}'
    || c == '\U{3000}' || c == '\U{FEFF}'
  }

  /** A character of the regular-expression class `\w` without the `u` flag. */
  predicate IsWordChar(c: char) {
    ('a' <= c <= 'z') || ('A' <= c <= 'Z') || ('0' <= c <= '9') || c == '_'
  }

  predicate AllSpace(s: string) {
    forall i :: 0 <= i < |s| ==> IsJsSpace(s[i])
  }

  /** Leading whitespace removed: a suffix of `s` that does not start with a space. */
  function TrimStart(s: string): (r: string)
    ensures |r| <= |s| && r == s[|s| - |r|..]
    ensures AllSpace(s[..|s| - |r|])
    ensures r == [] || !IsJsSpace(r[0])
  {
    if |s| > 0 && IsJsSpace(s[0]) then
      var r := TrimStart(s[1..]);
      assert s[1..][..|s[1..]| - |r|] == s[1..|s| - |r|];
      r
    else
      s
  }

  /** Trailing whitespace removed: a prefix of `s` that does not end with a space. */
  function TrimEnd(s: string): (r: string)
    ensures |r| <= |s| && r == s[..|r|]
    ensures AllSpace(s[|r|..])
    ensures r == [] || !IsJsSpace(r[|r| - 1])
  {
    if |s| > 0 && IsJsSpace(s[|s| - 1]) then
      var r := TrimEnd(s[..|s| - 1]);
      assert s[..|s| - 1][|r|..] == s[|r|..|s| - 1];
      r
    else
      s
  }

  /** `s.trim()` */
  function Trim(s: string): (r: string) {
    TrimEnd(TrimStart(s))
  }

  /** `!s.trim()`: the trimmed string is empty, hence falsy. */
  predicate IsBlank(s: string) {
    Trim(s) == []
  }

  /** A string is blank exactly when every one of its characters is whitespace. */
  lemma BlankIffAllSpace(s: string)
    ensures IsBlank(s) <==> AllSpace(s)
  {
    var t := TrimStart(s);
    if IsBlank(s) {
      assert AllSpace(t[0..]);
    }
  }

  /** The UTF-16 encoding of one code point: itself below U+10000, otherwise
      a high surrogate followed by a low surrogate. */
  function CodeUnits(c: char): (u: seq<int>) {
    if c as int < 0x1_0000 then [c as int]
    else
      var v := c as int - 0x1_0000;
      [0xD800 + v / 0x400, 0xDC00 + v % 0x400]
  }

  /** The UTF-16 encoding of a string, code point by code point. */
  function Utf16(s: string): (u: seq<int>) {
    if |s| == 0 then [] else CodeUnits(s[0]) + Utf16(s[1..])
  }

  /** `s.length`: the number of UTF-16 code units, two for a code point
      outside the Basic Multilingual Plane. */
  function Utf16Length(s: string): (n: nat)
    ensures n == |Utf16(s)|
    ensures |s| <= n <= 2 * |s|
    ensures (forall i :: 0 <= i < |s| ==> s[i] as int < 0x1_0000) ==> n == |s|
  {
    if |s| == 0 then 0
    else (if s[0] as int < 0x1_0000 then 1 else 2) + Utf16Length(s[1..])
  }
}

=== FILE: report.dfy ===
/** The report dialog: pick one or more issues, optionally describe them,
    submit, and see a confirmation. The dialog keeps its state while it is
    hidden, so reopening it resumes at the same step. */
module Report {

  import opened JsText

  datatype Step = Type | Details | Confirmation

  datatype Dialog = Dialog(selected: seq<string>, step: Step, details: string)

  /** The state the dialog is mounted with. */
  const Initial := Dialog([], Type, "")

  /** The identifiers of the fixed issue taxonomy, in display order. */
  const ReportOptions: seq<string> :=
    ["sexual", "violent", "hateful", "harassment", "harmful", "copyright", "spam", "privacy"]

  /** The limit shown next to the details counter; it is never enforced. */
  const DetailsLimit := 1000

  predicate Distinct(s: seq<string>) {
    forall i, j :: 0 <= i < j < |s| ==> s[i] != s[j]
  }

  /** `prev.filter(id => id !== issueId)` */
  function Remove(s: seq<string>, x: string): (r: seq<string>)
    ensures forall y :: y in r <==> y in s && y != x
    ensures Distinct(s) ==> Distinct(r)
  {
    if |s| == 0 then []
    else if s[0] == x then Remove(s[1..], x)
    else
      var rest := Remove(s[1..], x);
      assert Distinct(s) ==> s[0] !in s[1..];
      [s[0]] + rest
  }

  /** `handleCheckboxChange`: drop the issue if it is selected, otherwise
      append it at the end. */
  function ToggleIssue(selected: seq<string>, issue: string): (r: seq<string>)
    ensures issue in r <==> issue !in selected
    ensures forall y :: y != issue ==> (y in r <==> y in selected)
    ensures Distinct(selected) ==> Distinct(r)
  {
    if issue in selected then Remove(selected, issue) else selected + [issue]
  }

  /** Toggling the same issue twice restores which issues are selected. */
  lemma ToggleIssueTwice(selected: seq<string>, issue: string)
    ensures forall y :: y in ToggleIssue(ToggleIssue(selected, issue), issue) <==> y in selected
  {
  }

  lemma {:induction false} RemoveAppended(s: seq<string>, x: string)
    requires x !in s
    ensures Remove(s + [x], x) == s
    decreases |s|
  {
    if |s| == 0 {
      assert [] + [x] == [x];
      assert Remove([x], x) == Remove([], x);
    } else {
      assert (s + [x])[0] == s[0];
      assert (s + [x])[1..] == s[1..] + [x];
      RemoveAppended(s[1..], x);
    }
  }

  /** Checking an unselected issue and unchecking it again gives back the
      very same selection, order included. */
  lemma ToggleIssueAddThenRemove(selected: seq<string>, issue: string)
    requires issue !in selected
    ensures ToggleIssue(ToggleIssue(selected, issue), issue) == selected
  {
    RemoveAppended(selected, issue);
  }

  /** The Next button is enabled only with at least one issue selected. */
  predicate NextEnabled(d: Dialog) {
    |d.selected| != 0
  }

  /** The details counter: the text's `length` (UTF-16 code units) over the limit. */
  function Counter(d: Dialog): (r: (nat, nat))
    ensures r.1 == DetailsLimit
    ensures r.0 == |Utf16(d.details)|
    ensures |d.details| <= r.0 <= 2 * |d.details|
  {
    (Utf16Length(d.details), DetailsLimit)
  }

  /** What the user can do inside the open dialog. `Close` is the header's
      X button, present on every step. */
  datatype Event =
    | Check(issue: string)
    | Next
    | Back
    | EditDetails(text: string)
    | Submit
    | Cancel
    | Done
    | Close

  /** The dialog after an event, and whether `onClose` was called. */
  datatype Outcome = Outcome(dialog: Dialog, closeRequested: bool)

  /** One user action. A control that is not rendered on the current step,
      or is disabled, has no effect. Close, Cancel and Done only call
      `onClose`; none of them resets the dialog. */
  function Handle(d: Dialog, e: Event): (o: Outcome)
    ensures o.closeRequested ==> o.dialog == d
    ensures o.dialog.step == Details && d.step == Type ==> NextEnabled(d)
    ensures o.dialog.step != d.step ==> o.dialog.selected == d.selected && o.dialog.details == d.details
    ensures e.Check? ==> o.dialog.selected == (if d.step == Type then ToggleIssue(d.selected, e.issue) else d.selected)
    ensures e.Close? ==> o.closeRequested
    ensures e.Cancel? ==> (o.closeRequested <==> d.step != Confirmation)
    ensures e.Done? ==> (o.closeRequested <==> d.step == Confirmation)
    ensures o.dialog.step != d.step ==>
              || (e.Next? && d.step == Type && o.dialog.step == Details)
              || (e.Back? && d.step == Details && o.dialog.step == Type)
              || (e.Submit? && d.step == Details && o.dialog.step == Confirmation)
    ensures o.dialog.selected != d.selected ==> e.Check? && d.step == Type
    ensures o.dialog.details != d.details ==> e.EditDetails? && d.step == Details
  {
    match e
    case Check(issue) =>
      if d.step == Type then Outcome(d.(selected := ToggleIssue(d.selected, issue)), false)
      else Outcome(d, false)
    case Next =>
      if d.step == Type && NextEnabled(d) then Outcome(d.(step := Details), false)
      else Outcome(d, false)
    case Back =>
      if d.step == Details then Outcome(d.(step := Type), false) else Outcome(d, false)
    case EditDetails(text) =>
      if d.step == Details then Outcome(d.(details := text), false) else Outcome(d, false)
    case Submit =>
      if d.step == Details then Outcome(d.(step := Confirmation), false) else Outcome(d, false)
    case Cancel =>
      Outcome(d, d.step == Type || d.step == Details)
    case Done =>
      Outcome(d, d.step == Confirmation)
    case Close =>
      Outcome(d, true)
  }

  /** Next with nothing selected is disabled; with a selection it moves on. */
  lemma NextNeedsSelection(d: Dialog)
    requires d.step == Type
    ensures Handle(d, Next).dialog.step == Details <==> |d.selected| > 0
  {
  }

  /** Back returns from the details step keeping the selection and the text. */
  lemma BackKeepsInput(d: Dialog)
    requires d.step == Details
    ensures Handle(d, Back) == Outcome(Dialog(d.selected, Type, d.details), false)
  {
  }

  /** Submit shows the confirmation and keeps what was reported. */
  lemma SubmitConfirms(d: Dialog)
    requires d.step == Details
    ensures Handle(d, Submit) == Outcome(Dialog(d.selected, Confirmation, d.details), false)
  {
  }

  /** Editing the details stores the text verbatim, however long it is. */
  lemma DetailsNeverTruncated(d: Dialog, text: string)
    requires d.step == Details
    ensures Handle(d, EditDetails(text)).dialog.details == text
    ensures |text| > DetailsLimit ==> Counter(Handle(d, EditDetails(text)).dialog).0 > DetailsLimit
  {
  }

  /** What every reachable dialog satisfies: the selection has no repeats,
      and past the first step it is not empty. */
  ghost predicate Valid(d: Dialog) {
    Distinct(d.selected) && (d.step != Type ==> |d.selected| > 0)
  }

  /** The dialog after a sequence of actions. */
  function Run(d: Dialog, es: seq<Event>): (r: Dialog)
    decreases |es|
  {
    if |es| == 0 then d else Run(Handle(d, es[0]).dialog, es[1..])
  }

  /** Every sequence of actions from the mounted state keeps the dialog valid. */
  lemma {:induction false} RunKeepsValid(d: Dialog, es: seq<Event>)
    requires Valid(d)
    ensures Valid(Run(d, es))
    decreases |es|
  {
    if |es| > 0 {
      RunKeepsValid(Handle(d, es[0]).dialog, es[1..]);
    }
  }

  /** Every issue id in a selection comes from the fixed taxonomy. */
  predicate FromOptions(d: Dialog) {
    forall x :: x in d.selected ==> x in ReportOptions
  }

  /** Checkboxes only offer the taxonomy's ids, so a selection never holds
      anything else; the taxonomy itself has no repeats. */
  lemma HandleKeepsOptions(d: Dialog, e: Event)
    requires FromOptions(d)
    requires e.Check? ==> e.issue in ReportOptions
    ensures FromOptions(Handle(d, e).dialog)
    ensures Distinct(ReportOptions)
  {
  }

  lemma InitialIsValid()
    ensures Valid(Initial) && Initial.step == Type && Initial.selected == [] && Initial.details == []
  {
  }
}

=== FILE: share.dfy ===
/** The share dialog: a Share tab with a copy-link button and an Embed tab
    that builds an iframe snippet starting at a chosen time. */
module Share {

  import opened Optional

  datatype Tab = ShareTab | EmbedTab

  datatype Dialog = Dialog(copied: bool, tab: Tab, startTime: string)

  const Initial := Dialog(false, ShareTab, "0:00")

  /** The start times the Embed tab offers. */
  const TimeOptions: seq<string> := ["0:00", "1:30", "3:45", "5:20", "10:15", "15:30"]

  /** `String.prototype.indexOf` for one character: the first position
      holding it, or -1. */
  function IndexOf(s: string, c: char): (k: int)
    ensures -1 <= k < |s|
    ensures k == -1 <==> c !in s
    ensures k >= 0 ==> s[k] == c && forall j :: 0 <= j < k ==> s[j] != c
  {
    if |s| == 0 then -1
    else if s[0] == c then 0
    else
      var k := IndexOf(s[1..], c);
      if k < 0 then -1 else k + 1
  }

  /** `String.prototype.replace` with a one-character string pattern: only
      the first occurrence is replaced. */
  function ReplaceFirst(s: string, from: char, to: char): (r: string)
    ensures |r| == |s|
    ensures forall j :: 0 <= j < |s| ==> r[j] == if j == IndexOf(s, from) then to else s[j]
  {
    if |s| == 0 then []
    else if s[0] == from then [to] + s[1..]
    else [s[0]] + ReplaceFirst(s[1..], from, to)
  }

  /** The value of the `t` query parameter for a start time. */
  function TimeParam(startTime: string): (t: string) {
    ReplaceFirst(startTime, ':', 'm')
  }

  /** For a time written minutes-colon-seconds, the parameter is the minutes,
      an `m`, then the seconds; any later colon is left as it is. */
  lemma TimeParamOfMinutesSeconds(minutes: string, seconds: string)
    requires ':' !in minutes
    ensures TimeParam(minutes + ":" + seconds) == minutes + "m" + seconds
  {
    var s := minutes + ":" + seconds;
    assert s[|minutes|] == ':' && s[..|minutes|] == minutes;
    assert s[|minutes| + 1..] == seconds;
  }

  /** The `t` values of the offered times, in the same order. */
  const OfferedParams: seq<string> := ["0m00", "1m30", "3m45", "5m20", "10m15", "15m30"]

  /** Every offered time gives the expected `t` value, for instance 1:30 gives 1m30. */
  lemma OfferedTimeParam(i: nat)
    requires i < |TimeOptions|
    ensures i < |OfferedParams| && TimeParam(TimeOptions[i]) == OfferedParams[i]
  {
    var minutes := ["0", "1", "3", "5", "10", "15"];
    var seconds := ["00", "30", "45", "20", "15", "30"];
    assert TimeOptions[i] == minutes[i] + ":" + seconds[i];
    assert OfferedParams[i] == minutes[i] + "m" + seconds[i];
    TimeParamOfMinutesSeconds(minutes[i], seconds[i]);
  }

  const EmbedHead := "<iframe width=\"560\" height=\"315\" src=\""
  const EmbedTail := "\" frameborder=\"0\" allowfullscreen></iframe>"

  /** The `src` attribute of the snippet. */
  function EmbedSrc(url: string, startTime: string): (src: string) {
    url + "?t=" + TimeParam(startTime) + "s"
  }

  /** The snippet shown in the Embed tab's text area. */
  function EmbedCode(url: string, startTime: string): (r: string)
    ensures |r| == |EmbedHead| + |url| + 3 + |startTime| + 1 + |EmbedTail|
    ensures r[..|EmbedHead|] == EmbedHead && r[|r| - |EmbedTail|..] == EmbedTail
    ensures r[|EmbedHead|..|r| - |EmbedTail|] == EmbedSrc(url, startTime)
  {
    EmbedHead + EmbedSrc(url, startTime) + EmbedTail
  }

  /** Two snippets for the same URL agree exactly when their `t` values do. */
  lemma EmbedCodeDeterminesParam(url: string, t1: string, t2: string)
    ensures EmbedCode(url, t1) == EmbedCode(url, t2) <==> TimeParam(t1) == TimeParam(t2)
  {
    if EmbedCode(url, t1) == EmbedCode(url, t2) {
      var a := EmbedSrc(url, t1);
      var b := EmbedSrc(url, t2);
      assert a == b;
      var n := |url| + 3;
      assert a[n..|a| - 1] == TimeParam(t1);
      assert b[n..|b| - 1] == TimeParam(t2);
    }
  }

  /** A time such as `m:ss`: it has a colon and no letter `m`. */
  predicate ClockTime(t: string) {
    ':' in t && 'm' !in t
  }

  lemma OfferedTimesAreClockTimes()
    ensures forall t :: t in TimeOptions ==> ClockTime(t)
  {
    forall i | 0 <= i < |TimeOptions|
      ensures ClockTime(TimeOptions[i])
    {
      assert TimeOptions[i][|TimeOptions[i]| - 3] == ':';
    }
  }

  /** The `t` value of a clock time can be read back by turning its first
      `m` into a colon again. */
  lemma TimeParamRoundTrip(t: string)
    requires ClockTime(t)
    ensures ReplaceFirst(TimeParam(t), 'm', ':') == t
  {
    var k := IndexOf(t, ':');
    var p := TimeParam(t);
    assert p[k] == 'm';
    assert forall j :: 0 <= j < k ==> p[j] == t[j] && p[j] != 'm';
    assert IndexOf(p, 'm') == k;
    var q := ReplaceFirst(p, 'm', ':');
    assert forall j :: 0 <= j < |t| ==> q[j] == t[j];
  }

  /** The snippet determines the chosen start time: two clock times, the
      offered ones among them, give the same snippet only when they are equal. */
  lemma EmbedCodeDeterminesTime(url: string, t1: string, t2: string)
    requires ClockTime(t1) && ClockTime(t2)
    ensures EmbedCode(url, t1) == EmbedCode(url, t2) <==> t1 == t2
  {
    EmbedCodeDeterminesParam(url, t1, t2);
    TimeParamRoundTrip(t1);
    TimeParamRoundTrip(t2);
  }

  /** The dialog opens on the Share tab, not yet copied, with the first
      offered start time, which is a clock time. */
  lemma InitialTimeIsOffered()
    ensures Initial.tab == ShareTab && !Initial.copied
    ensures Initial.startTime == TimeOptions[0] && ClockTime(Initial.startTime)
  {
    OfferedTimesAreClockTimes();
  }

  /** A start-time button, shown only on the Embed tab, sets exactly the
      time it shows. */
  function SelectTime(d: Dialog, t: string): (r: Dialog)
    ensures d.tab == ShareTab ==> r == d
    ensures d.tab == EmbedTab ==> r.startTime == t && r.tab == d.tab && r.copied == d.copied
  {
    if d.tab == EmbedTab then d.(startTime := t) else d
  }

  /** The Share and Embed tabs, and the Embed share option, switch the tab. */
  function SelectTab(d: Dialog, t: Tab): (r: Dialog)
    ensures r.tab == t && r.startTime == d.startTime && r.copied == d.copied
  {
    d.(tab := t)
  }

  /** The result of a copy button: the new dialog state and the text put on
      the clipboard. */
  datatype Copy = Copy(dialog: Dialog, clipboard: string)

  /** `handleCopyLink`, on the Share tab: the video URL goes to the clipboard
      and the copied flag is set. The button is not shown on the Embed tab,
      where nothing is copied. */
  function CopyLink(d: Dialog, url: string): (r: Option<Copy>)
    ensures r.None? <==> d.tab == EmbedTab
    ensures r.Some? ==> r.value.clipboard == url && r.value.dialog.copied
    ensures r.Some? ==> r.value.dialog.(copied := d.copied) == d
  {
    if d.tab.ShareTab? then Some(Copy(d.(copied := true), url)) else None
  }

  /** The Embed tab's Copy button; it is not shown on the Share tab. */
  function CopyEmbed(d: Dialog, url: string): (r: Option<Copy>)
    ensures r.None? <==> d.tab == ShareTab
    ensures r.Some? ==> r.value.dialog.copied && r.value.dialog.(copied := d.copied) == d
    ensures r.Some? ==> r.value.clipboard == EmbedCode(url, d.startTime)
  {
    if d.tab.EmbedTab? then
      Some(Copy(d.(copied := true), EmbedHead + url + "?t=" + ReplaceFirst(d.startTime, ':', 'm') + "s" + EmbedTail))
    else None
  }

  /** On the Embed tab, choosing an offered time and copying the snippet puts
      the displayed snippet, with that time, on the clipboard. */
  lemma CopiedSnippetIsShown(d: Dialog, url: string, i: nat)
    requires d.tab == EmbedTab
    requires i < |TimeOptions|
    ensures CopyEmbed(SelectTime(d, TimeOptions[i]), url) ==
            Some(Copy(d.(startTime := TimeOptions[i], copied := true), EmbedCode(url, TimeOptions[i])))
  {
  }
}
